=== FILE: README.md ===
# CollectionFS access points, modelled in Dafny

This project models the access points of Meteor-CollectionFS
(`accessPoint.js`): the layer that receives chunked uploads, serves stored
copies of a file and deletes files, guarded by a two-phase allow/deny
validator check.

- `wrappers.dfy` (`Wrappers`): `Option` and `Result`.
- `text.dfy` (`Text`): how an integer offset is rendered into an error
  message, reading an optionally signed decimal back (`ParseInt`,
  `IsDecimalText`, on which the reading of a query range is built), and
  ASCII lower-casing of the request method.
- `files.dfy` (`Files`): file descriptors with their named copies, actors,
  validator chains and collections. A collection keeps two validator
  registries apart: `fileValidators` stands for `collection.files._validators`,
  which upload and delete read. `ownValidators` stands for
  `collection._validators`, which download reads.
- `errors.dfy` (`Errors`): the errors thrown, with their status codes,
  reasons and details.
- `gate.dfy` (`AccessGate`): the deny-then-allow check. It appears as a
  pure decision (`Authorize`) and as the short-circuiting scan the source
  performs (`EvaluateGate`), which also counts validator calls.
- `access_points.dfy` (`AccessPoints`): `APUpload`, `APDownload` and
  `APDelete`. Storage calls are returned as descriptions (`ReadRequest`,
  `Removal`, the promoted bytes in `UploadReport`) rather than performed.
  The temp store is an oracle (`TempStore`): `saveChunk` reports
  `(err, done)` and `dataForFile` yields the assembled bytes.
- `handler.dfy` (`HttpHandler`): the closure built by `APhandler`, which
  checks the id, finds the file, dispatches on the method and sets the
  response metadata for reads.
- `routes.dfy` (`Routes`): the remote-procedure and HTTP route tables.

The deployment-wide insecure switch (`Package.insecure`) is an explicit
`insecure` parameter. The actor (`this.userId`) is the opaque `Actor`.

Notes on behaviour:
- Download consults the collection's own validators, while upload and
  delete consult those of the underlying files collection. The two
  registries are separate and can disagree.
- The handler compares the lower-cased method with `"del"`, not
  `"delete"`. A method string `"DELETE"` therefore dispatches nothing
  (`HttpHandler.DeleteMethodNameDispatchesNothing`). The value the HTTP layer
  puts in `method` is not part of this model, so this is recorded as
  behaviour and not as a defect.
- Only the HTTP handler checks that the selected copy exists. The download
  access point itself passes any copy name on to storage.
- The source handler passes the query's `start` and `end` on unchanged.
  The download access point then checks them with
  `Match.Optional(Number)`, which refuses any query range given as text
  (see "## Findings"). `HttpHandler.Serve` instead reads decimal text as
  numbers (`HttpHandler.ParseRange`), and `AccessPoints.Download` performs
  no type check itself.
- Completion detection for chunked uploads belongs to the temp store, which
  is not part of this model. The access point only reacts to the
  `(err, done)` it reports.

## Model

| member | source | states |
|---|---|---|
| AccessGate.FirstTrue | accessPoint.js:20-22 | `_.any` stops at the first validator that returns true: every earlier one returned false, and `None` means every validator returned false |
| AccessGate.Authorize | accessPoint.js:16-31 | permits exactly when insecure mode is on, or when no deny validator returns true and some allow validator does |
| AccessGate.EvaluateGate | accessPoint.js:16-31 | the validator-by-validator scan reaches the same decision as `Authorize`; insecure mode calls no validator; otherwise it calls deny validators up to the first true, then (if none fired) allow validators up to the first true |
| AccessGate.DenyDominates | accessPoint.js:20-24 | a deny validator that returns true refuses, whatever the allow chain holds |
| AccessGate.EmptyAllowDenies | accessPoint.js:26-30 | an empty allow chain refuses every request |
| AccessGate.InsecureBypasses | accessPoint.js:16 | insecure mode permits everything |
| AccessGate.RegistrationOrderIrrelevant | accessPoint.js:20-30 | any permutation of the deny chain and of the allow chain leaves the decision unchanged |
| AccessGate.RegistrationMonotone | accessPoint.js:20-30 | adding a deny validator can only withdraw permission, and adding an allow validator can only grant it |
| AccessPoints.Upload | accessPoint.js:1-52 | non-binary data is refused before anything else; a missing or non-numeric start stages at offset 0; a firing deny or an unanswered allow chain gives 403 and stages nothing; a staging error fails naming the offset and promotes nothing; promotion happens exactly when staging reports done without error and the file assembles, and it promotes the assembled bytes; a chunk staged without error and not done is accepted with nothing promoted; an assembly error is rethrown as the temp store gave it |
| AccessPoints.Download | accessPoint.js:55-88 | succeeds exactly when the collection's own download chain permits; otherwise 403; on success it reads exactly the given copy name and range of the given file |
| AccessPoints.Delete | accessPoint.js:90-123 | succeeds exactly when the files collection's remove chain permits; otherwise 403; on success it removes the whole file |
| AccessPoints.ApplyRemoval | accessPoint.js:90-92 | removing a file drops its entry, with all its copies, and leaves every other file as it was |
| AccessPoints.DenyDominatesEverywhere | accessPoint.js:20-113 | for upload, download and delete alike, a firing deny validator of that operation's own chain gives 403 |
| AccessPoints.EmptyAllowDeniesEverywhere | accessPoint.js:26-119 | for upload, download and delete alike, an empty allow chain gives 403 |
| AccessPoints.InsecureReachesStorage | accessPoint.js:16-122 | in insecure mode a binary upload is never refused with 403, a download reads and a delete removes |
| AccessPoints.ValidatorSetsAreSeparate | accessPoint.js:20-115 | download depends only on the collection's own validators; upload and delete depend only on the files collection's validators |
| HttpHandler.Serve | accessPoint.js:128-186 | a missing or empty id gives 400 and an unknown id gives 404, both before any storage call; any other outcome concerns a stored file; only a read sets response metadata; a method other than get, put or del dispatches nothing, and only such a method does; for a stored file, such a method returns normally with no metadata and no dispatch, and PUT, DEL and a GET of an existing copy succeed exactly when the upload, delete or download access point does, return its error otherwise, and dispatch exactly what it returns |
| HttpHandler.HandlerDenyDominates | accessPoint.js:174-184 | for a stored file, a firing deny validator of the matching chain makes a GET of an existing copy whose range reads, a binary PUT and a DEL give 403 |
| HttpHandler.HandlerEmptyAllowDenies | accessPoint.js:174-184 | for a stored file, an empty allow chain of the matching class makes a GET of an existing copy whose range reads, a binary PUT and a DEL give 403 |
| HttpHandler.GetResponse | accessPoint.js:143-175 | a successful read names an existing copy; the content type is the copy's when it has one; the attachment header comes first exactly on download routes; the configured headers follow in order; the status is 200; the read asks for the resolved copy and the start and end read from the query |
| HttpHandler.UnknownSelectorNotFound | accessPoint.js:152-155 | a read whose resolved selector names no copy gives 404 for that selector |
| HttpHandler.SelectorDefaultsToMaster | accessPoint.js:147-150 | a request without a selector is handled as one selecting `_master` |
| HttpHandler.PutUploadsAtZero | accessPoint.js:177-180 | a successful PUT stages the request body at offset 0 |
| HttpHandler.DeleteIgnoresSelector | accessPoint.js:182-185 | a delete ignores the selector and removes the whole file |
| HttpHandler.VerbIgnoresCase | accessPoint.js:144-183 | the method is matched without regard to letter case |
| HttpHandler.DeleteMethodNameDispatchesNothing | accessPoint.js:183-185 | `"DEL"`, `"GET"` and `"Put"` dispatch; `"DELETE"` lower-cases to `"delete"` and does not |
| HttpHandler.DeleteThenGetNotFound | accessPoint.js:137-141 | after a delete's removal is applied to the stored files, a request for the same id gives 404 |
| Routes.DdpTable | accessPoint.js:189-197 | exactly three names, the collection's `<methodName>/put`, `/get` and `/del`, bound to upload, download and delete |
| Routes.HttpTable | accessPoint.js:199-208 | exactly four path patterns under the collection's `httpUrl`; a handler attaches the file exactly when its path lies under `<httpUrl>/download/`; every handler carries the configured extra headers, none when none are configured (the default `APhandler` applies at lines 125-126) |
| HttpHandler.CheckRangeAsWritten | accessPoint.js:59-60 | the number check on the query's `start` and `end` passes only when both are absent |
| HttpHandler.RangedReadRefusedAsWritten | accessPoint.js:59-60 | as written, any query giving `start` and `end`, such as `?start=2&end=5`, fails the number check |
| HttpHandler.ParseParam | accessPoint.js:59-60 | an absent query parameter stays absent; the text of any integer reads back as that integer; text is accepted exactly when it is an optionally signed run of digits, and anything else fails the number check |
| HttpHandler.ParseRangeReadsNumbers | accessPoint.js:59-60 | every integer range written in decimal is read as that range, and the reading agrees with the check as written wherever that one passes |
| Errors.Code | accessPoint.js:134-154 | among the errors the access points build, 400 only for a missing id, 404 only for an unknown file or selector, 403 only for a refusal (the status thrown at lines 23, 29, 77, 83, 112 and 118), and their plain errors carry no status; a temp-store error rethrown at line 44 keeps whatever status it had |
| Errors.StagingMessageNamesOffset | accessPoint.js:34-36 | the staging-failure message starts with the fixed prefix, the failing offset can be read back from it, and the temp store's message follows |
| Errors.AccessDeniedIsOpaque | accessPoint.js:23 | a refusal carries only "Access denied" and no details |
| Text.NatToDecimal | accessPoint.js:36 | a non-negative offset renders as decimal digits without leading zeros |
| Text.DecimalRoundTrip | accessPoint.js:36 | the rendered digits read back as the original number |
| Text.IntRoundTrip | accessPoint.js:36 | a signed offset's text reads back as that offset |
| Text.LowerAscii | accessPoint.js:144 | lower-casing keeps the length, leaves no upper-case letter and changes only upper-case letters |

## Left out

- Meteor type guards (`check`, `Match`, `FS.File`): arguments are typed,
  except the number check on an HTTP query's `start` and `end` (see
  "## Findings"). The text of the `Match` error is not modelled.
- `EJSON.isBinary` is reduced to the two-way `Data` type.
- `fsFile.fetch()` and the `_collections[...]` global lookup: the collection
  is passed in, and for the HTTP handler it is the collection the handler
  was built for.
- `self.unblock()` only concerns scheduling.
- AccessPoints.Upload: the errors at lines 36 and 44 are thrown inside the
  callbacks passed to `TempStore.saveChunk` and `getDataForFile`, and
  `APUpload` itself returns at line 52. Whether those errors reach the
  caller depends on when the temp store calls back, and the temp store is
  not part of this model. The model treats them as failures of the upload,
  and so of `HttpHandler.Serve` on a PUT.
- The temp store's chunk tiling and completion detection are not part of
  this model. Staging and assembly are oracle functions.
- Storage calls `fsFile.get`, `fsFile.put` and `fsFile.remove` are not
  performed. The model returns what they would be asked to do, and
  `ApplyRemoval` gives the effect of a removal on the stored files.
- HttpHandler.Serve: the handler sets the content type, the attachment
  header, the extra headers and status 200 before the download access point
  runs its range check and its gate. A read refused there has already had
  that metadata set, including the copy's file name. The model returns the
  metadata only with a successful read. Whether the HTTP layer sends
  metadata along with an error is not part of this model.
- HttpHandler.Serve: follows the corrected reading of the query range
  (see "## Findings"). For `GET <httpUrl>/<id>?start=2&end=5` the model
  issues a read with start 2 and end 5, where the source throws the `Match` error from
  `check(start, Match.Optional(Number))`.
- HttpHandler.Serve: `file.copies` is a JavaScript object; the model treats
  it as a map. A file without `copies` makes the source throw a TypeError,
  and the model answers 404 instead. A selector naming an inherited
  property, such as `constructor`, passes the source's copy check; the model
  answers 404 instead. For such selectors `HttpHandler.UnknownSelectorNotFound`
  holds of the model, not of the source.
- The actual emission of HTTP headers and the HTTP and remote-procedure
  servers are left out. Route tables map keys to descriptions of the
  handlers.
- Text.LowerAscii: lower-cases ASCII letters only, not all of Unicode as
  `toLowerCase` does.
- Text.NatToDecimal: numbers of 10^21 and above, which JavaScript writes in
  exponent form, and non-integer offsets are not modelled.

## Findings

| source | as written | input that shows it | evidently intended | confidence | as-written member | corrected member |
|---|---|---|---|---|---|---|
| accessPoint.js:59-60 | the download access point checks `start` and `end` with `Match.Optional(Number)`, but the HTTP handler passes them from the URL query, where they are text | `GET <httpUrl>/<id>?start=2&end=5` gives `query.start == "2"`, which fails the check | a query range in decimal reads as the numbers it names and selects that byte range | medium; not executed | HttpHandler.CheckRangeAsWritten, HttpHandler.RangedReadRefusedAsWritten | HttpHandler.ParseParam, HttpHandler.ParseRangeReadsNumbers |

=== FILE: access_points.dfy ===
/** The three access points: upload a chunk (`APUpload`), read a copy
    (`APDownload`) and delete a file (`APDelete`). Each passes the gate of
    its permission class before it reaches storage. Storage itself is not
    modelled: each access point returns the storage call it would make. */
module AccessPoints {
  import opened Wrappers
  import opened Files
  import opened Errors
  import opened AccessGate

  /** What `TempStore.saveChunk` reports to its callback: an error message, or
      whether the chunk completed the file. */
  datatype StageReport = StageReport(err: Option<string>, done: bool)

  /** The temporary chunk store, whose tiling and completion logic is not
      part of this model: `saveChunk(file, bytes, offset)` stages a chunk and
      `dataForFile(file)` yields the assembled bytes (`getDataForFile`). */
  datatype TempStore = TempStore(
    saveChunk: (FileDescriptor, seq<byte>, int) -> StageReport,
    dataForFile: FileDescriptor -> Result<seq<byte>, Thrown>)

  /** An accepted chunk: the offset and bytes staged, and the assembled bytes
      handed to `put` when the chunk completed the file. */
  datatype UploadReport = UploadReport(offset: int, chunk: seq<byte>, promoted: Option<seq<byte>>)

  /** The read `fsFile.get(copyName, start, end)` a download makes. */
  datatype ReadRequest = ReadRequest(file: FileDescriptor, copyName: string, start: Option<int>, end: Option<int>)

  /** The `fsFile.remove()` a delete makes: the whole file, every copy. */
  datatype Removal = Removal(file: FileDescriptor)

  /** The offset a chunk is staged at: `start` when it is a number, else 0. */
  function ChunkOffset(start: Option<int>): int {
    start.GetOr(0)
  }

  /** APUpload: refuse non-binary data, pass the insert gate of the files
      collection, stage the chunk, and promote the assembled file when the
      temp store reports it complete. */
  function Upload(insecure: bool, coll: Collection, actor: Actor, file: FileDescriptor,
                  data: Data, start: Option<int>, temp: TempStore): (r: Result<UploadReport, Error>)
    // the binary check comes before everything else
    ensures !data.Binary? ==> r == Failure(NotBinary)
    ensures data.Binary? && !insecure && AnyTrue(coll.fileValidators.insert.deny, actor, file)
            ==> r == Failure(AccessDenied)
    ensures data.Binary? && !insecure && !AnyTrue(coll.fileValidators.insert.allow, actor, file)
            ==> r == Failure(AccessDenied)
    // nothing is staged unless the insert gate permits
    ensures r.Success? ==> data.Binary? && Authorize(insecure, coll.fileValidators.insert, actor, file) == Permit
    ensures r.Success? ==> r.value.offset == (if start.Some? then start.value else 0)
                           && r.value.chunk == data.bytes
    // a staging error names the offset and nothing is promoted
    ensures data.Binary? && Authorize(insecure, coll.fileValidators.insert, actor, file) == Permit
            && temp.saveChunk(file, data.bytes, ChunkOffset(start)).err.Some?
            ==> r == Failure(StagingFailure(ChunkOffset(start),
                                            temp.saveChunk(file, data.bytes, ChunkOffset(start)).err.value))
    // promotion happens exactly when staging succeeds with done and the data assembles
    ensures (r.Success? && r.value.promoted.Some?) <==>
              && data.Binary?
              && Authorize(insecure, coll.fileValidators.insert, actor, file) == Permit
              && temp.saveChunk(file, data.bytes, ChunkOffset(start)) == StageReport(None, true)
              && temp.dataForFile(file).Success?
    ensures r.Success? && r.value.promoted.Some? ==> r.value.promoted.value == temp.dataForFile(file).value
    ensures r.Success? ==>
              (r.value.promoted.None? <==> temp.saveChunk(file, data.bytes, ChunkOffset(start)) == StageReport(None, false))
    // a chunk that does not complete the file is simply accepted
    ensures data.Binary? && Authorize(insecure, coll.fileValidators.insert, actor, file) == Permit
            && temp.saveChunk(file, data.bytes, ChunkOffset(start)) == StageReport(None, false)
            ==> r == Success(UploadReport(ChunkOffset(start), data.bytes, None))
    // the temp store's assembly error is rethrown as it is
    ensures data.Binary? && Authorize(insecure, coll.fileValidators.insert, actor, file) == Permit
            && temp.saveChunk(file, data.bytes, ChunkOffset(start)) == StageReport(None, true)
            && temp.dataForFile(file).Failure?
            ==> r == Failure(AssemblyFailure(temp.dataForFile(file).error))
  {
    if !data.Binary? then Failure(NotBinary)
    else
      var offset := ChunkOffset(start);
      if Authorize(insecure, coll.fileValidators.insert, actor, file) == Deny then Failure(AccessDenied)
      else
        var staged := temp.saveChunk(file, data.bytes, offset);
        if staged.err.Some? then Failure(StagingFailure(offset, staged.err.value))
        else if !staged.done then Success(UploadReport(offset, data.bytes, None))
        else
          match temp.dataForFile(file)
          case Failure(cause) => Failure(AssemblyFailure(cause))
          case Success(assembled) => Success(UploadReport(offset, data.bytes, Some(assembled)))
  }

  /** APDownload: pass the download gate of the collection itself, then read
      the requested copy and range. The copy is not looked up here. */
  function Download(insecure: bool, coll: Collection, actor: Actor, file: FileDescriptor,
                    copyName: string, start: Option<int>, end: Option<int>): (r: Result<ReadRequest, Error>)
    ensures r.Success? <==>
              insecure || (!AnyTrue(coll.ownValidators.download.deny, actor, file)
                           && AnyTrue(coll.ownValidators.download.allow, actor, file))
    ensures r.Failure? ==> r.error == AccessDenied
    ensures r.Success? ==> r.value.file == file && r.value.copyName == copyName
                           && r.value.start == start && r.value.end == end
  {
    if Authorize(insecure, coll.ownValidators.download, actor, file) == Deny then Failure(AccessDenied)
    else Success(ReadRequest(file, copyName, start, end))
  }

  /** APDelete: pass the remove gate of the files collection, then remove the
      whole file. There is no way to name a single copy. */
  function Delete(insecure: bool, coll: Collection, actor: Actor, file: FileDescriptor): (r: Result<Removal, Error>)
    ensures r.Success? <==>
              insecure || (!AnyTrue(coll.fileValidators.remove.deny, actor, file)
                           && AnyTrue(coll.fileValidators.remove.allow, actor, file))
    ensures r.Failure? ==> r.error == AccessDenied
    ensures r.Success? ==> r.value.file == file
  {
    if Authorize(insecure, coll.fileValidators.remove, actor, file) == Deny then Failure(AccessDenied)
    else Success(Removal(file))
  }

  /** The effect of a removal on the stored files: the file's entry, with
      all its copies, disappears and nothing else changes. */
  function ApplyRemoval(files: map<string, FileDescriptor>, removal: Removal): (m: map<string, FileDescriptor>)
    ensures m.Keys == files.Keys - {removal.file.id}
    ensures forall k :: k in m ==> m[k] == files[k]
    ensures WellKeyed(files) ==> WellKeyed(m)
  {
    files - {removal.file.id}
  }

  /** The three access points refuse with 403 when a deny validator fires,
      whatever the allow validators say, each on its own chain. */
  lemma DenyDominatesEverywhere(coll: Collection, actor: Actor, file: FileDescriptor, bytes: seq<byte>,
                                start: Option<int>, temp: TempStore, copyName: string, end: Option<int>)
    ensures AnyTrue(coll.fileValidators.insert.deny, actor, file)
            ==> Upload(false, coll, actor, file, Binary(bytes), start, temp) == Failure(AccessDenied)
    ensures AnyTrue(coll.ownValidators.download.deny, actor, file)
            ==> Download(false, coll, actor, file, copyName, start, end) == Failure(AccessDenied)
    ensures AnyTrue(coll.fileValidators.remove.deny, actor, file)
            ==> Delete(false, coll, actor, file) == Failure(AccessDenied)
  {
  }

  /** An empty allow chain refuses every upload, download and delete. */
  lemma EmptyAllowDeniesEverywhere(coll: Collection, actor: Actor, file: FileDescriptor, bytes: seq<byte>,
                                   start: Option<int>, temp: TempStore, copyName: string, end: Option<int>)
    ensures coll.fileValidators.insert.allow == []
            ==> Upload(false, coll, actor, file, Binary(bytes), start, temp) == Failure(AccessDenied)
    ensures coll.ownValidators.download.allow == []
            ==> Download(false, coll, actor, file, copyName, start, end) == Failure(AccessDenied)
    ensures coll.fileValidators.remove.allow == []
            ==> Delete(false, coll, actor, file) == Failure(AccessDenied)
  {
  }

  /** In insecure mode every access point reaches storage: a binary chunk is
      staged, a download reads and a delete removes. */
  lemma InsecureReachesStorage(coll: Collection, actor: Actor, file: FileDescriptor, bytes: seq<byte>,
                               start: Option<int>, temp: TempStore, copyName: string, end: Option<int>)
    ensures Upload(true, coll, actor, file, Binary(bytes), start, temp) != Failure(AccessDenied)
    ensures Download(true, coll, actor, file, copyName, start, end) == Success(ReadRequest(file, copyName, start, end))
    ensures Delete(true, coll, actor, file) == Success(Removal(file))
  {
  }

  /** Download consults only the collection's own validators, upload and
      delete only those of the files collection. */
  lemma ValidatorSetsAreSeparate(insecure: bool, coll: Collection, own: Validators, fileSide: Validators,
                                 actor: Actor, file: FileDescriptor, data: Data, start: Option<int>,
                                 temp: TempStore, copyName: string, end: Option<int>)
    ensures Download(insecure, coll.(fileValidators := fileSide), actor, file, copyName, start, end)
         == Download(insecure, coll, actor, file, copyName, start, end)
    ensures Upload(insecure, coll.(ownValidators := own), actor, file, data, start, temp)
         == Upload(insecure, coll, actor, file, data, start, temp)
    ensures Delete(insecure, coll.(ownValidators := own), actor, file)
         == Delete(insecure, coll, actor, file)
  {
  }
}

=== FILE: errors.dfy ===
/** What the access points throw: `Meteor.Error`s carry an HTTP status and a
    reason, plain `Error`s carry only a message. */
module Errors {
  import opened Wrappers
  import Text

  /** An error object a collaborator passes to a callback: a `Meteor.Error`
      carries a status, a plain `Error` does not. */
  datatype Thrown = Thrown(code: Option<nat>, message: string)

  datatype Error =
    | BadRequest                               // no file id in the path
    | FileNotFound(id: string)                 // no file with that id
    | InvalidSelector(copyName: string)        // the file has no such copy
    | AccessDenied                             // a validator chain refused
    | NotBinary                                // upload payload is not binary
    | StagingFailure(offset: int, cause: string) // the temp store rejected a chunk
    | AssemblyFailure(thrown: Thrown)          // the temp store's own error, rethrown
    | RangeMismatch                            // `check(start, Match.Optional(Number))` failed

  /** The status a `Meteor.Error` carries; `None` for a plain `Error`. A
      rethrown temp-store error keeps whatever status it had. */
  function Code(e: Error): (c: Option<nat>)
    ensures e.AssemblyFailure? ==> c == e.thrown.code
    ensures !e.AssemblyFailure? ==>
              (c.Some? <==> e.BadRequest? || e.FileNotFound? || e.InvalidSelector? || e.AccessDenied?)
    ensures !e.AssemblyFailure? ==> (c == Some(400) <==> e.BadRequest?)
    ensures !e.AssemblyFailure? ==> (c == Some(403) <==> e.AccessDenied?)
    ensures !e.AssemblyFailure? ==> (c == Some(404) <==> e.FileNotFound? || e.InvalidSelector?)
  {
    match e
    case BadRequest => Some(400)
    case FileNotFound(_) => Some(404)
    case InvalidSelector(_) => Some(404)
    case AccessDenied => Some(403)
    case AssemblyFailure(thrown) => thrown.code
    case _ => None
  }

  const StagingPrefix := "Unable to load binary chunk at position "

  /** The reason of a `Meteor.Error`, the message of a plain `Error`. */
  function Message(e: Error): string {
    match e
    case BadRequest => "Bad Request"
    case FileNotFound(_) => "Not Found"
    case InvalidSelector(_) => "Not Found"
    case AccessDenied => "Access denied"
    case NotBinary => "APUpload expects binary data"
    case StagingFailure(offset, cause) => StagingPrefix + Text.IntToString(offset) + ": " + cause
    case AssemblyFailure(thrown) => thrown.message
    case RangeMismatch => "Match error"
  }

  /** The details of a `Meteor.Error`, when it has any. */
  function Details(e: Error): Option<string> {
    match e
    case BadRequest => Some("No file ID specified")
    case FileNotFound(id) => Some("There is no file with ID " + id)
    case InvalidSelector(copyName) => Some("Invalid selector: " + copyName)
    case _ => None
  }

  /** A refusal says nothing about which validator refused. */
  lemma AccessDeniedIsOpaque()
    ensures Message(AccessDenied) == "Access denied" && Details(AccessDenied) == None
  {
  }

  /** The staging failure message names the failing offset, which can be read
      back from it, followed by the temp store's own message. */
  lemma StagingMessageNamesOffset(offset: int, cause: string)
    ensures var m := Message(StagingFailure(offset, cause));
      && |StagingPrefix| <= |m|
      && m[..|StagingPrefix|] == StagingPrefix
      && exists j :: |StagingPrefix| <= j <= |m|
           && Text.ParseInt(m[|StagingPrefix|..j]) == Some(offset)
           && m[j..] == ": " + cause
  {
    var m := Message(StagingFailure(offset, cause));
    var digits := Text.IntToString(offset);
    var j := |StagingPrefix| + |digits|;
    assert m == StagingPrefix + digits + (": " + cause);
    assert m[|StagingPrefix|..j] == digits;
    assert m[j..] == ": " + cause;
    Text.IntRoundTrip(offset);
  }
}

=== FILE: files.dfy ===
/** The data the access points work on: stored files with their named
    copies, the actor making a request, the allow/deny validator chains
    and the collection that owns both. */
module Files {
  import opened Wrappers

  newtype byte = b: int | 0 <= b < 256

  /** One stored rendition of a file (`file.copies[name]`); `contentType`
      is `None` when the copy's `type` is not a string. */
  datatype CopyInfo = CopyInfo(name: string, contentType: Option<string>)

  /** A stored file: its `_id` and its copies keyed by selector
      ("_master" is the original). */
  datatype FileDescriptor = FileDescriptor(id: string, copies: map<string, CopyInfo>)

  /** `this.userId`: null when nobody is logged in. */
  datatype Actor = Anonymous | User(userId: string)

  /** A user-registered validator, called as `validator(userId, fsFile)`. */
  type Validator = (Actor, FileDescriptor) -> bool

  /** The deny and allow chains of one permission class, in registration order. */
  datatype Rules = Rules(deny: seq<Validator>, allow: seq<Validator>)

  /** The chains of the three permission classes. */
  datatype Validators = Validators(insert: Rules, download: Rules, remove: Rules)

  /** A file collection. Uploads and deletes consult the validators of the
      collection's underlying files collection (`collection.files._validators`),
      downloads consult the collection's own (`collection._validators`); the two
      are kept apart because nothing forces them to agree. */
  datatype Collection = Collection(
    methodName: string,
    httpUrl: string,
    files: map<string, FileDescriptor>,
    fileValidators: Validators,
    ownValidators: Validators)

  /** The lookup `findOne({_id: id})` answers from: every file sits under its own id. */
  predicate WellKeyed(files: map<string, FileDescriptor>) {
    forall k :: k in files ==> files[k].id == k
  }

  /** Request payload: `EJSON.isBinary` holds exactly for `Binary`. */
  datatype Data = Binary(bytes: seq<byte>) | NonBinary
}

=== FILE: gate.dfy ===
/** The two-phase allow/deny check shared by upload, download and delete:
    any deny validator returning true refuses; otherwise at least one allow
    validator must return true. A deployment in insecure mode skips the check. */
module AccessGate {
  import opened Wrappers
  import opened Files

  datatype Decision = Permit | Deny

  /** Some validator of the chain returns true for this actor and file. */
  predicate AnyTrue(vs: seq<Validator>, actor: Actor, file: FileDescriptor) {
    exists i :: 0 <= i < |vs| && vs[i](actor, file)
  }

  /** The position at which `_.any` stops: the first validator that returns
      true, or `None` when every one returns false. */
  function FirstTrue(vs: seq<Validator>, actor: Actor, file: FileDescriptor): (r: Option<nat>)
    ensures r.Some? ==> r.value < |vs| && vs[r.value](actor, file)
    ensures r.Some? ==> forall j :: 0 <= j < r.value ==> !vs[j](actor, file)
    ensures r.None? ==> forall j :: 0 <= j < |vs| ==> !vs[j](actor, file)
  {
    if |vs| == 0 then None
    else if vs[0](actor, file) then Some(0)
    else
      match FirstTrue(vs[1..], actor, file)
      case None => None
      case Some(k) => Some(k + 1)
  }

  /** How many validators of the chain a short-circuiting scan calls. */
  function Probes(vs: seq<Validator>, actor: Actor, file: FileDescriptor): (n: nat)
    ensures n <= |vs|
    ensures n < |vs| ==> AnyTrue(vs, actor, file)
  {
    match FirstTrue(vs, actor, file)
    case Some(k) => k + 1
    case None => |vs|
  }

  /** The gate: deny chain first (`_.any`), then the allow chain, which
      refuses when every validator returns false (`_.all(!validator)`). */
  function Authorize(insecure: bool, rules: Rules, actor: Actor, file: FileDescriptor): (d: Decision)
    ensures d == Permit <==>
              insecure || (!AnyTrue(rules.deny, actor, file) && AnyTrue(rules.allow, actor, file))
  {
    if insecure then Permit
    else if FirstTrue(rules.deny, actor, file).Some? then Deny
    else if FirstTrue(rules.allow, actor, file).None? then Deny
    else Permit
  }

  /** The gate evaluated the way the access points do it, one validator call
      at a time, stopping at the first deciding answer. `consulted` counts
      the validator calls made. */
  method EvaluateGate(insecure: bool, rules: Rules, actor: Actor, file: FileDescriptor)
    returns (d: Decision, consulted: nat)
    ensures d == Authorize(insecure, rules, actor, file)
    ensures insecure ==> consulted == 0
    ensures !insecure ==>
              consulted == Probes(rules.deny, actor, file)
                           + (if AnyTrue(rules.deny, actor, file) then 0 else Probes(rules.allow, actor, file))
  {
    if insecure {
      return Permit, 0;
    }
    consulted := 0;
    var i := 0;
    while i < |rules.deny|
      invariant i <= |rules.deny|
      invariant consulted == i
      invariant forall j :: 0 <= j < i ==> !rules.deny[j](actor, file)
    {
      consulted := consulted + 1;
      if rules.deny[i](actor, file) {
        return Deny, consulted;
      }
      i := i + 1;
    }
    var k := 0;
    while k < |rules.allow|
      invariant k <= |rules.allow|
      invariant consulted == |rules.deny| + k
      invariant forall j :: 0 <= j < k ==> !rules.allow[j](actor, file)
    {
      consulted := consulted + 1;
      if rules.allow[k](actor, file) {
        return Permit, consulted;
      }
      k := k + 1;
    }
    return Deny, consulted;
  }

  /** A deny validator returning true refuses whatever the allow chain says. */
  lemma DenyDominates(rules: Rules, actor: Actor, file: FileDescriptor, allow: seq<Validator>)
    requires AnyTrue(rules.deny, actor, file)
    ensures Authorize(false, rules, actor, file) == Deny
    ensures Authorize(false, Rules(rules.deny, allow), actor, file) == Deny
  {
  }

  /** With no allow validator registered nothing is permitted. */
  lemma EmptyAllowDenies(deny: seq<Validator>, actor: Actor, file: FileDescriptor)
    ensures Authorize(false, Rules(deny, []), actor, file) == Deny
  {
  }

  /** Insecure mode permits everything without calling any validator. */
  lemma InsecureBypasses(rules: Rules, actor: Actor, file: FileDescriptor)
    ensures Authorize(true, rules, actor, file) == Permit
  {
  }

  lemma {:induction false} AnyTrueAppend(a: seq<Validator>, b: seq<Validator>, actor: Actor, file: FileDescriptor)
    ensures AnyTrue(a + b, actor, file) <==> AnyTrue(a, actor, file) || AnyTrue(b, actor, file)
  {
    if AnyTrue(a + b, actor, file) {
      var i :| 0 <= i < |a + b| && (a + b)[i](actor, file);
      if i < |a| {
        assert a[i](actor, file);
      } else {
        assert b[i - |a|](actor, file);
      }
    }
    if AnyTrue(a, actor, file) {
      var i :| 0 <= i < |a| && a[i](actor, file);
      assert (a + b)[i](actor, file);
    }
    if AnyTrue(b, actor, file) {
      var i :| 0 <= i < |b| && b[i](actor, file);
      assert (a + b)[|a| + i](actor, file);
    }
  }

  /** Whether some validator of a chain fires depends only on which
      validators the chain holds, not on their order. */
  lemma AnyTrueOnlyMembers(a: seq<Validator>, b: seq<Validator>, actor: Actor, file: FileDescriptor)
    requires multiset(a) == multiset(b)
    ensures AnyTrue(a, actor, file) ==> AnyTrue(b, actor, file)
  {
    if AnyTrue(a, actor, file) {
      var i :| 0 <= i < |a| && a[i](actor, file);
      assert a[i] in multiset(a);
      assert a[i] in b;
      var j :| 0 <= j < |b| && b[j] == a[i];
      assert b[j](actor, file);
    }
  }

  /** The order in which validators were registered changes how many are
      called, never the decision: any permutation of either chain decides
      alike. */
  lemma RegistrationOrderIrrelevant(insecure: bool, r1: Rules, r2: Rules, actor: Actor, file: FileDescriptor)
    requires multiset(r1.deny) == multiset(r2.deny)
    requires multiset(r1.allow) == multiset(r2.allow)
    ensures Authorize(insecure, r1, actor, file) == Authorize(insecure, r2, actor, file)
  {
    AnyTrueOnlyMembers(r1.deny, r2.deny, actor, file);
    AnyTrueOnlyMembers(r2.deny, r1.deny, actor, file);
    AnyTrueOnlyMembers(r1.allow, r2.allow, actor, file);
    AnyTrueOnlyMembers(r2.allow, r1.allow, actor, file);
  }

  /** Registering another deny validator can only take permissions away;
      registering another allow validator can only grant more. */
  lemma RegistrationMonotone(insecure: bool, rules: Rules, v: Validator, actor: Actor, file: FileDescriptor)
    ensures Authorize(insecure, Rules(rules.deny + [v], rules.allow), actor, file) == Permit
            ==> Authorize(insecure, rules, actor, file) == Permit
    ensures Authorize(insecure, rules, actor, file) == Permit
            ==> Authorize(insecure, Rules(rules.deny, rules.allow + [v]), actor, file) == Permit
  {
    AnyTrueAppend(rules.deny, [v], actor, file);
    AnyTrueAppend(rules.allow, [v], actor, file);
  }
}

=== FILE: handler.dfy ===
/** The HTTP request handler built by `APhandler`: it checks the file id,
    finds the file, dispatches on the request method and, for a read,
    resolves the copy and hands over to the download access point. The
    response metadata (content type, headers, status) is returned together
    with a successful read. */
module HttpHandler {
  import opened Wrappers
  import opened Files
  import opened Errors
  import opened AccessGate
  import opened AccessPoints
  import Text

  datatype Header = Header(name: string, value: string)

  /** The path parameters `:id` and `:selector`; `None` when absent. */
  datatype Params = Params(id: Option<string>, selector: Option<string>)

  /** A URL query parameter as the HTTP layer delivers it: absent, or text. */
  datatype QueryParam = Missing | QueryText(text: string)

  /** The query parameters `start` and `end` of a ranged read. */
  datatype Query = Query(start: QueryParam, end: QueryParam)

  /** The byte range a read passes to storage; `None` leaves an end open. */
  datatype ByteRange = ByteRange(start: Option<int>, end: Option<int>)

  datatype Request = Request(httpMethod: string, params: Params, query: Query, body: Data, actor: Actor)

  /** One handler closure built by `APhandler(collection, download, options)`:
      whether its path is a download path, and the extra headers configured
      for the collection. */
  datatype Route = Route(download: bool, httpHeaders: seq<Header>)

  /** The storage call the handler reached, if any. */
  datatype Dispatch =
    | Served(read: ReadRequest)
    | Uploaded(report: UploadReport)
    | Removed(removal: Removal)
    | NoOperation

  /** Response metadata the handler set (`None`: left to the server) and the
      dispatched operation. */
  datatype Response = Response(contentType: Option<string>, headers: seq<Header>,
                               status: Option<nat>, dispatch: Dispatch)

  datatype Verb = GetVerb | PutVerb | DelVerb | OtherVerb

  const DefaultSelector := "_master"

  /** `if (! id)`: an absent or empty id is missing. */
  predicate HasId(id: Option<string>) {
    id.Some? && id.value != ""
  }

  /** The method compared case-insensitively with "get", "put" and "del". */
  function VerbOf(httpMethod: string): Verb {
    var m := Text.LowerAscii(httpMethod);
    if m == "get" then GetVerb
    else if m == "put" then PutVerb
    else if m == "del" then DelVerb
    else OtherVerb
  }

  /** A selector that is not a string falls back to the master copy. */
  function ResolveSelector(selector: Option<string>): string {
    selector.GetOr(DefaultSelector)
  }

  function Disposition(filename: string): Header {
    Header("Content-Disposition", "attachment; filename=\"" + filename + "\"")
  }

  /** `check(v, Match.Optional(Number))` applied to a query parameter, as
      the download access point does with `query.start` and `query.end`: a
      query parameter is text, never a number, so only an absent one passes. */
  function CheckParamAsWritten(p: QueryParam): (r: Result<Option<int>, Error>)
    ensures r.Success? <==> p.Missing?
    ensures r.Success? ==> r.value.None?
  {
    match p
    case Missing => Success(None)
    case QueryText(_) => Failure(RangeMismatch)
  }

  /** The range check as written, over both query parameters. */
  function CheckRangeAsWritten(q: Query): (r: Result<ByteRange, Error>)
    ensures r.Success? <==> q.start.Missing? && q.end.Missing?
    ensures r.Success? ==> r.value == ByteRange(None, None)
  {
    match (CheckParamAsWritten(q.start), CheckParamAsWritten(q.end))
    case (Success(s), Success(e)) => Success(ByteRange(s, e))
    case (Failure(err), _) => Failure(err)
    case (_, Failure(err)) => Failure(err)
  }

  /** As written, every ranged HTTP read is refused: `?start=2&end=5`
      fails the number check although it names a valid range. */
  lemma RangedReadRefusedAsWritten(s: int, e: int)
    ensures CheckRangeAsWritten(Query(QueryText(Text.IntToString(s)), QueryText(Text.IntToString(e))))
         == Failure(RangeMismatch)
    ensures CheckRangeAsWritten(Query(QueryText("2"), QueryText("5"))).Failure?
  {
  }

  /** The evidently intended reading of a query parameter: absent stays
      absent, decimal text becomes its number, and anything else still fails
      the number check. */
  function ParseParam(p: QueryParam): (r: Result<Option<int>, Error>)
    ensures p.Missing? ==> r == Success(None)
    ensures forall n: int :: p == QueryText(Text.IntToString(n)) ==> r == Success(Some(n))
    ensures p.QueryText? ==> (r.Success? <==> Text.IsDecimalText(p.text))
    ensures p.QueryText? && r.Success? ==> r.value.Some?
    ensures r.Failure? ==> r.error == RangeMismatch
  {
    Text.IntRoundTripAll();
    match p
    case Missing => Success(None)
    case QueryText(t) =>
      match Text.ParseInt(t)
      case Some(n) => Success(Some(n))
      case None => Failure(RangeMismatch)
  }

  /** The range a read asks storage for, from the query as intended. */
  function ParseRange(q: Query): Result<ByteRange, Error> {
    match (ParseParam(q.start), ParseParam(q.end))
    case (Success(s), Success(e)) => Success(ByteRange(s, e))
    case (Failure(err), _) => Failure(err)
    case (_, Failure(err)) => Failure(err)
  }

  /** The intended range check accepts every integer range written in
      decimal and agrees with the check as written wherever that accepts. */
  lemma ParseRangeReadsNumbers(q: Query, s: int, e: int)
    ensures ParseRange(Query(QueryText(Text.IntToString(s)), QueryText(Text.IntToString(e))))
         == Success(ByteRange(Some(s), Some(e)))
    ensures CheckRangeAsWritten(q).Success? ==> ParseRange(q) == CheckRangeAsWritten(q)
  {
    Text.IntRoundTrip(s);
    Text.IntRoundTrip(e);
  }

  /** The handler closure applied to one request. */
  function Serve(insecure: bool, cfs: Collection, route: Route, req: Request, temp: TempStore): (r: Result<Response, Error>)
    ensures !HasId(req.params.id) ==> r == Failure(BadRequest)
    ensures HasId(req.params.id) && req.params.id.value !in cfs.files
            ==> r == Failure(FileNotFound(req.params.id.value))
    // any other outcome needs a present id naming a stored file
    ensures r.Success? || (r.Failure? && !r.error.BadRequest? && !r.error.FileNotFound?)
            ==> HasId(req.params.id) && req.params.id.value in cfs.files
    ensures r.Success? && VerbOf(req.httpMethod) != GetVerb
            ==> r.value.contentType.None? && r.value.headers == [] && r.value.status.None?
    ensures r.Success? && VerbOf(req.httpMethod) == OtherVerb ==> r.value.dispatch == NoOperation
    ensures r.Success? && r.value.dispatch.NoOperation? ==> VerbOf(req.httpMethod) == OtherVerb
    // any other method on a stored file falls through every branch and returns normally
    ensures HasId(req.params.id) && req.params.id.value in cfs.files && VerbOf(req.httpMethod) == OtherVerb
            ==> r == Success(Response(None, [], None, NoOperation))
    // every dispatch goes through its access point, and so through its gate
    ensures HasId(req.params.id) && req.params.id.value in cfs.files && VerbOf(req.httpMethod) == PutVerb ==>
              var up := Upload(insecure, cfs, req.actor, cfs.files[req.params.id.value], req.body, None, temp);
              && (r.Success? <==> up.Success?)
              && (up.Failure? ==> r == Failure(up.error))
              && (up.Success? ==> r.value.dispatch == Uploaded(up.value))
    ensures HasId(req.params.id) && req.params.id.value in cfs.files && VerbOf(req.httpMethod) == DelVerb ==>
              var del := Delete(insecure, cfs, req.actor, cfs.files[req.params.id.value]);
              && (r.Success? <==> del.Success?)
              && (del.Failure? ==> r == Failure(del.error))
              && (del.Success? ==> r.value.dispatch == Removed(del.value))
    ensures HasId(req.params.id) && req.params.id.value in cfs.files && VerbOf(req.httpMethod) == GetVerb
            && ResolveSelector(req.params.selector) in cfs.files[req.params.id.value].copies ==>
              var range := ParseRange(req.query);
              && (range.Failure? ==> r == Failure(range.error))
              && (range.Success? ==>
                    var dl := Download(insecure, cfs, req.actor, cfs.files[req.params.id.value],
                                       ResolveSelector(req.params.selector), range.value.start, range.value.end);
                    && (r.Success? <==> dl.Success?)
                    && (dl.Failure? ==> r == Failure(dl.error))
                    && (dl.Success? ==> r.value.dispatch == Served(dl.value)))
  {
    if !HasId(req.params.id) then Failure(BadRequest)
    else
      var id := req.params.id.value;
      if id !in cfs.files then Failure(FileNotFound(id))
      else
        var file := cfs.files[id];
        match VerbOf(req.httpMethod)
        case GetVerb =>
          var copyName := ResolveSelector(req.params.selector);
          if copyName !in file.copies then Failure(InvalidSelector(copyName))
          else
            var copy := file.copies[copyName];
            var headers := (if route.download then [Disposition(copy.name)] else []) + route.httpHeaders;
            (match ParseRange(req.query)
             case Failure(e) => Failure(e)
             case Success(range) =>
               match Download(insecure, cfs, req.actor, file, copyName, range.start, range.end)
               case Failure(e) => Failure(e)
               case Success(read) => Success(Response(copy.contentType, headers, Some(200), Served(read))))
        case PutVerb =>
          (match Upload(insecure, cfs, req.actor, file, req.body, None, temp)
           case Failure(e) => Failure(e)
           case Success(report) => Success(Response(None, [], None, Uploaded(report))))
        case DelVerb =>
          (match Delete(insecure, cfs, req.actor, file)
           case Failure(e) => Failure(e)
           case Success(removal) => Success(Response(None, [], None, Removed(removal))))
        case OtherVerb => Success(Response(None, [], None, NoOperation))
  }

  /** A successful read of an existing file: the copy exists, the content
      type is the copy's when it has one, the attachment header comes first
      exactly on download routes, the configured headers follow in order,
      the status is 200 and the read asks for exactly the resolved copy and
      the query's range. */
  lemma GetResponse(insecure: bool, cfs: Collection, route: Route, req: Request, temp: TempStore)
    requires VerbOf(req.httpMethod) == GetVerb
    requires Serve(insecure, cfs, route, req, temp).Success?
    ensures var resp := Serve(insecure, cfs, route, req, temp).value;
      var file := cfs.files[req.params.id.value];
      var name := ResolveSelector(req.params.selector);
      && name in file.copies
      && resp.status == Some(200)
      && resp.contentType == file.copies[name].contentType
      && ParseRange(req.query).Success?
      && resp.dispatch == Served(ReadRequest(file, name, ParseRange(req.query).value.start,
                                             ParseRange(req.query).value.end))
      && |resp.headers| == |route.httpHeaders| + (if route.download then 1 else 0)
      && resp.headers[|resp.headers| - |route.httpHeaders|..] == route.httpHeaders
      && (route.download ==> resp.headers[0] == Disposition(file.copies[name].name))
      && (!route.download ==> resp.headers == route.httpHeaders)
  {
  }

  /** Through the handler too, a firing deny validator of the matching chain
      refuses a read, an upload and a delete of a stored file with 403. */
  lemma HandlerDenyDominates(cfs: Collection, route: Route, req: Request, temp: TempStore)
    requires HasId(req.params.id) && req.params.id.value in cfs.files
    ensures var file := cfs.files[req.params.id.value];
      && (VerbOf(req.httpMethod) == GetVerb && ResolveSelector(req.params.selector) in file.copies
          && ParseRange(req.query).Success? && AnyTrue(cfs.ownValidators.download.deny, req.actor, file)
          ==> Serve(false, cfs, route, req, temp) == Failure(AccessDenied))
      && (VerbOf(req.httpMethod) == PutVerb && req.body.Binary?
          && AnyTrue(cfs.fileValidators.insert.deny, req.actor, file)
          ==> Serve(false, cfs, route, req, temp) == Failure(AccessDenied))
      && (VerbOf(req.httpMethod) == DelVerb && AnyTrue(cfs.fileValidators.remove.deny, req.actor, file)
          ==> Serve(false, cfs, route, req, temp) == Failure(AccessDenied))
  {
  }

  /** Through the handler too, an empty allow chain refuses every read,
      upload and delete of a stored file with 403. */
  lemma HandlerEmptyAllowDenies(cfs: Collection, route: Route, req: Request, temp: TempStore)
    requires HasId(req.params.id) && req.params.id.value in cfs.files
    ensures var file := cfs.files[req.params.id.value];
      && (VerbOf(req.httpMethod) == GetVerb && ResolveSelector(req.params.selector) in file.copies
          && ParseRange(req.query).Success? && cfs.ownValidators.download.allow == []
          ==> Serve(false, cfs, route, req, temp) == Failure(AccessDenied))
      && (VerbOf(req.httpMethod) == PutVerb && req.body.Binary? && cfs.fileValidators.insert.allow == []
          ==> Serve(false, cfs, route, req, temp) == Failure(AccessDenied))
      && (VerbOf(req.httpMethod) == DelVerb && cfs.fileValidators.remove.allow == []
          ==> Serve(false, cfs, route, req, temp) == Failure(AccessDenied))
  {
  }

  /** A read whose resolved selector names no copy is a 404 naming it. */
  lemma UnknownSelectorNotFound(insecure: bool, cfs: Collection, route: Route, req: Request, temp: TempStore)
    requires VerbOf(req.httpMethod) == GetVerb
    requires HasId(req.params.id) && req.params.id.value in cfs.files
    requires ResolveSelector(req.params.selector) !in cfs.files[req.params.id.value].copies
    ensures Serve(insecure, cfs, route, req, temp) == Failure(InvalidSelector(ResolveSelector(req.params.selector)))
  {
  }

  /** Omitting the selector is the same request as selecting "_master". */
  lemma SelectorDefaultsToMaster(insecure: bool, cfs: Collection, route: Route, req: Request, temp: TempStore)
    ensures Serve(insecure, cfs, route, req.(params := req.params.(selector := None)), temp)
         == Serve(insecure, cfs, route, req.(params := req.params.(selector := Some(DefaultSelector))), temp)
  {
  }

  /** A PUT stages the request body at offset 0. */
  lemma PutUploadsAtZero(insecure: bool, cfs: Collection, route: Route, req: Request, temp: TempStore)
    requires VerbOf(req.httpMethod) == PutVerb
    requires Serve(insecure, cfs, route, req, temp).Success?
    ensures var resp := Serve(insecure, cfs, route, req, temp).value;
      && resp.dispatch.Uploaded?
      && resp.dispatch.report.offset == 0
      && resp.dispatch.report.chunk == req.body.bytes
  {
  }

  /** A delete removes the whole file whatever selector the path carries. */
  lemma DeleteIgnoresSelector(insecure: bool, cfs: Collection, route: Route, req: Request,
                              selector: Option<string>, temp: TempStore)
    requires VerbOf(req.httpMethod) == DelVerb
    ensures Serve(insecure, cfs, route, req.(params := req.params.(selector := selector)), temp)
         == Serve(insecure, cfs, route, req, temp)
    ensures Serve(insecure, cfs, route, req, temp).Success?
            ==> Serve(insecure, cfs, route, req, temp).value.dispatch
                == Removed(Removal(cfs.files[req.params.id.value]))
  {
  }

  /** Method names are compared without regard to letter case. */
  lemma VerbIgnoresCase(httpMethod: string)
    ensures VerbOf(Text.LowerAscii(httpMethod)) == VerbOf(httpMethod)
  {
    Text.LowerAsciiIdempotent(httpMethod);
  }

  /** The method is compared with "del", so a request whose method reads
      "DELETE" dispatches nothing. */
  lemma DeleteMethodNameDispatchesNothing()
    ensures VerbOf("DELETE") == OtherVerb
    ensures VerbOf("DEL") == DelVerb && VerbOf("GET") == GetVerb && VerbOf("Put") == PutVerb
  {
    assert Text.LowerAscii("DELETE") == "delete";
    assert Text.LowerAscii("DEL") == "del";
    assert Text.LowerAscii("GET") == "get";
    assert Text.LowerAscii("Put") == "put";
  }

  /** Once a delete has removed a file, reading it again is a 404. */
  lemma DeleteThenGetNotFound(insecure: bool, cfs: Collection, route: Route, del: Request, get: Request,
                              temp: TempStore)
    requires WellKeyed(cfs.files)
    requires Serve(insecure, cfs, route, del, temp).Success?
    requires Serve(insecure, cfs, route, del, temp).value.dispatch.Removed?
    requires get.params.id == del.params.id
    ensures var removal := Serve(insecure, cfs, route, del, temp).value.dispatch.removal;
      Serve(insecure, cfs.(files := ApplyRemoval(cfs.files, removal)), route, get, temp)
        == Failure(FileNotFound(get.params.id.value))
  {
  }
}

=== FILE: routes.dfy ===
/** The two route tables a collection publishes: method names for the
    remote-procedure transport and path patterns for HTTP. */
module Routes {
  import opened Wrappers
  import opened Files
  import opened HttpHandler

  /** Which access point a remote-procedure name is bound to. */
  datatype DdpMethod = UploadMethod | DownloadMethod | DeleteMethod

  function DdpSuffix(m: DdpMethod): string {
    match m
    case UploadMethod => "/put"
    case DownloadMethod => "/get"
    case DeleteMethod => "/del"
  }

  predicate IsPrefix(p: string, s: string) {
    |p| <= |s| && s[..|p|] == p
  }

  /** `accessPointsDDP`: `<methodName>/put`, `/get` and `/del`, bound to
      upload, download and delete. */
  function DdpTable(cfs: Collection): (t: map<string, DdpMethod>)
    ensures |t| == 3
    ensures forall m: DdpMethod :: cfs.methodName + DdpSuffix(m) in t && t[cfs.methodName + DdpSuffix(m)] == m
    ensures forall k :: k in t ==> k == cfs.methodName + DdpSuffix(t[k])
  {
    var methodName := cfs.methodName;
    var put, get, del := methodName + "/put", methodName + "/get", methodName + "/del";
    assert put[|methodName| + 1] == 'p' && get[|methodName| + 1] == 'g' && del[|methodName| + 1] == 'd';
    var t := map[put := UploadMethod, get := DownloadMethod, del := DeleteMethod];
    assert t.Keys == {put, get, del};
    t
  }

  function DownloadPrefix(httpUrl: string): string {
    httpUrl + "/download/"
  }

  /** The four HTTP path patterns are distinct, and exactly the two download
      patterns lie under the download prefix. */
  lemma PatternFacts(httpUrl: string)
    ensures var p := DownloadPrefix(httpUrl);
      && IsPrefix(p, httpUrl + "/download/:id") && IsPrefix(p, httpUrl + "/download/:id/:selector")
      && !IsPrefix(p, httpUrl + "/:id") && !IsPrefix(p, httpUrl + "/:id/:selector")
    ensures |{httpUrl + "/download/:id", httpUrl + "/download/:id/:selector",
              httpUrl + "/:id", httpUrl + "/:id/:selector"}| == 4
  {
    var dl, dlSel := httpUrl + "/download/:id", httpUrl + "/download/:id/:selector";
    var plain, plainSel := httpUrl + "/:id", httpUrl + "/:id/:selector";
    var p := DownloadPrefix(httpUrl);
    assert dl[..|p|] == p && dlSel[..|p|] == p;
    assert plainSel[|httpUrl| + 1] == ':' && p[|httpUrl| + 1] == 'd';
    assert |dl| != |dlSel| && |dl| != |plain| && |dl| != |plainSel|
        && |dlSel| != |plain| && |dlSel| != |plainSel| && |plain| != |plainSel|;
  }

  /** `accessPointsHTTP`: four path patterns; the two under `/download/`
      attach the file, the two plain ones do not. Every handler carries the
      same configured extra headers, none when none are configured. */
  function HttpTable(cfs: Collection, httpHeaders: Option<seq<Header>>): (t: map<string, Route>)
    ensures |t| == 4
    ensures t.Keys == {cfs.httpUrl + "/download/:id", cfs.httpUrl + "/download/:id/:selector",
                       cfs.httpUrl + "/:id", cfs.httpUrl + "/:id/:selector"}
    ensures forall k :: k in t ==> (t[k].download <==> IsPrefix(DownloadPrefix(cfs.httpUrl), k))
    ensures forall k :: k in t ==> t[k].httpHeaders == httpHeaders.GetOr([])
  {
    var httpUrl := cfs.httpUrl;
    var dl, dlSel := httpUrl + "/download/:id", httpUrl + "/download/:id/:selector";
    var plain, plainSel := httpUrl + "/:id", httpUrl + "/:id/:selector";
    PatternFacts(httpUrl);
    // `options.httpHeaders || []`
    var extra := httpHeaders.GetOr([]);
    var t := map[dl := Route(true, extra), dlSel := Route(true, extra),
                 plain := Route(false, extra), plainSel := Route(false, extra)];
    t
  }
}

=== FILE: text.dfy ===
/** The little JavaScript string behaviour the access points rely on:
    turning an integer offset into text (for error messages) and
    lower-casing a request method. */
module Text {
  import opened Wrappers

  predicate IsDigit(c: char) {
    '0' <= c <= '9'
  }

  predicate AllDigits(s: string) {
    forall i :: 0 <= i < |s| ==> IsDigit(s[i])
  }

  function DigitChar(d: nat): (c: char)
    requires d < 10
    ensures IsDigit(c) && c as int - '0' as int == d
  {
    ('0' as int + d) as char
  }

  function DigitValue(c: char): nat
    requires IsDigit(c)
  {
    c as int - '0' as int
  }

  /** Decimal digits of `n`, most significant first, without leading zeros
      (JavaScript's `String(n)` for integers below 10^21). */
  function NatToDecimal(n: nat): (s: string)
    ensures |s| >= 1 && AllDigits(s)
    ensures s[0] == '0' <==> n == 0
    ensures n == 0 ==> s == "0"
    decreases n
  {
    if n < 10 then [DigitChar(n)] else NatToDecimal(n / 10) + [DigitChar(n % 10)]
  }

  /** The value of a string of decimal digits. */
  function DecimalValue(s: string): nat
    requires AllDigits(s)
  {
    if |s| == 0 then 0 else 10 * DecimalValue(s[..|s| - 1]) + DigitValue(s[|s| - 1])
  }

  /** How `"..." + n` renders an integer: a minus sign, then the digits. */
  function IntToString(n: int): (s: string)
    ensures |s| >= 1
    ensures s[0] == '-' <==> n < 0
  {
    if n < 0 then "-" + NatToDecimal(-n) else NatToDecimal(n)
  }

  /** Reads back an optionally signed decimal integer; `None` for anything else. */
  function ParseInt(s: string): Option<int> {
    if |s| == 0 then None
    else if s[0] == '-' then
      if 2 <= |s| && AllDigits(s[1..]) then Some(-(DecimalValue(s[1..]) as int)) else None
    else if AllDigits(s) then Some(DecimalValue(s) as int)
    else None
  }

  lemma {:induction false} DecimalRoundTrip(n: nat)
    ensures DecimalValue(NatToDecimal(n)) == n
    decreases n
  {
    if n >= 10 {
      var s := NatToDecimal(n / 10);
      var t := s + [DigitChar(n % 10)];
      assert NatToDecimal(n) == t;
      assert t[..|t| - 1] == s;
      DecimalRoundTrip(n / 10);
    }
  }

  /** The text of an integer reads back as that integer. */
  lemma IntRoundTrip(n: int)
    ensures ParseInt(IntToString(n)) == Some(n)
  {
    DecimalRoundTrip(if n < 0 then -n else n);
    if n < 0 {
      var s := IntToString(n);
      assert s[1..] == NatToDecimal(-n);
    }
  }

  /** Every integer's text reads back as that integer. */
  lemma IntRoundTripAll()
    ensures forall n: int :: ParseInt(IntToString(n)) == Some(n)
  {
    forall n: int
      ensures ParseInt(IntToString(n)) == Some(n)
    {
      IntRoundTrip(n);
    }
  }

  /** An optionally signed, non-empty run of decimal digits. */
  predicate IsDecimalText(t: string) {
    || (1 <= |t| && AllDigits(t))
    || (2 <= |t| && t[0] == '-' && AllDigits(t[1..]))
  }

  predicate IsUpper(c: char) {
    'A' <= c <= 'Z'
  }

  function LowerChar(c: char): char {
    if IsUpper(c) then (c as int + 32) as char else c
  }

  /** `String.prototype.toLowerCase` restricted to ASCII letters. */
  function LowerAscii(s: string): (r: string)
    ensures |r| == |s|
    ensures forall i :: 0 <= i < |r| ==> !IsUpper(r[i])
    ensures forall i :: 0 <= i < |r| ==>
              r[i] == s[i] || (IsUpper(s[i]) && r[i] as int == s[i] as int + 32)
  {
    seq(|s|, i requires 0 <= i < |s| => LowerChar(s[i]))
  }

  /** Lower-casing twice is lower-casing once. */
  lemma LowerAsciiIdempotent(s: string)
    ensures LowerAscii(LowerAscii(s)) == LowerAscii(s)
  {
  }
}

=== FILE: wrappers.dfy ===
/** Optional values and success-or-error results, used for absent
    arguments, map lookups and operations that throw. */
module Wrappers {

  datatype Option<+T> = None | Some(value: T) {

    /** The wrapped value, or `default` when there is none. */
    function GetOr(default: T): T {
      match this
      case Some(v) => v
      case None => default
    }
  }

  /** Either the value an operation returns or the error it throws. */
  datatype Result<+R, +E> = Success(value: R) | Failure(error: E)
}
